=== FILE: README.md ===
# Python cookbook recipes, modelled in Dafny

This project models the behavioural core of ten small recipes from a Python
cookbook collection. They are a sorted container, a type-keyed multiple
dispatcher, memoising instance caches, a singleton metaclass, call-counting
decorators, a compute-once attribute, closure accessors, a class-naming
metaclass and a leading-comment skipper. Each recipe is one Dafny module. Its
state is an immutable record, its operations are pure functions, and lemmas
relate the operations to each other.

Modelling conventions:

- Object identity (`a is b`) is an integer id taken from a creation counter.
  A new object always gets an id no earlier object had.
- An exception is the `Err` side of a `Result`, carrying the exception class
  the source raises and, where the source spells it out, its message. Messages
  Python composes itself (an arity error, say) are stood for by a fixed text.
- Python's exact runtime type `type(v)` is `Py.TypeOf`. `bool` is kept
  separate from `int`, as Python's `type()` keeps it. Python's `==`, which
  dictionary keys use, is `Py.PyEq`, and there `True == 1` and `False == 0`.
- A weak-reference cache entry disappears only through an explicit
  `CachedInstances.Evict` (module-level and manager caches) or
  `CachedInstances.EvictCached` (a `Cached` class's cache).
- Wrapped and decorated functions are parameters of the model. These are the
  function inside `Profiled`, the function behind a `lazyproperty`, and the
  handler bodies of `multimethod`. Each is a function of its inputs only: it
  does not call back into the decorator that wraps it or change shared state.

Files:

| file | module | recipe |
|---|---|---|
| wrappers.dfy | `Wrappers` | `Option` and `Result` |
| py.dfy | `Py` | values, runtime types, exceptions, ASCII `str.lower`, `str.startswith` |
| sorted_items.dfy | `SortedContainer` | `SortedItems` and `bisect.insort` |
| multimethod.dfy | `MultipleDispatch` | `multimethod` and the `Spam.bar` table |
| cached_instances.dfy | `CachedInstances` | `get_spam`, `CachedSpamManager`, the manager-backed `Spam`, the `Cached` metaclass |
| singleton.dfy | `SingletonMeta` | the `Singleton` metaclass |
| profiled.dfy | `Profiling` | `Profiled` and the `profiled` closure |
| lazyproperty.dfy | `LazyProperty` | `lazyproperty.__get__` and attribute lookup |
| closure.dfy | `ClosureAccessors` | `sample`, `func`, `get_n`, `set_n` |
| coding_conventions.dfy | `CodingConventions` | `NoMixedCaseMeta` |
| skipping_items.dfy | `SkippingItems` | `dropwhile(startswith('#'))` |

Lines 1-70 of cached_instances.py and creating_cached_instances.py are the
same text. `CachedInstances` models them once, and rows below cite whichever
file is clearer.

## Model

| member | source | states |
|---|---|---|
| Py.TypeOf | multiple_dispatch_with_function_annotations.py:27 | `type(v)` is `bool` exactly for booleans and never `int` for them; an instance has its own class as type |
| Py.HashKey | cached_instances.py:86-90 | the dictionary key of a value: `True` and `False` become `1` and `0`, and every other value is its own key |
| Py.HashKeyIffEq | cached_instances.py:86-90 | two values are one dictionary key if and only if Python's `==` holds between them |
| Py.TupleKey | cached_instances.py:86-90 | the key of an argument tuple is the key of each component, in order |
| Py.TupleKeyIffEq | cached_instances.py:86-90 | two argument tuples are one dictionary key if and only if they have the same length and are `==` position by position |
| Py.StartsWith | skipping_items.py:7 | `s.startswith(prefix)` holds if and only if `s` is at least as long as `prefix` and agrees with it at every position of `prefix` |
| Py.Lower | enforcing_coding_conventions_in_classes.py:26 | `name.lower()` over ASCII keeps the length and lowers exactly the upper-case letters |
| Py.LowerFixedIffNoUpper | enforcing_coding_conventions_in_classes.py:26 | a name equals its lower-case form if and only if it holds no upper-case ASCII letter |
| SortedContainer.InsertPoint | implementing_custom_containers.py:24 | the insertion point in a sorted list has every item at most `x` before it and every item greater than `x` after it |
| SortedContainer.BisectRight | implementing_custom_containers.py:24 | the binary search of `insort` finds that same right-most insertion point |
| SortedContainer.Insort | implementing_custom_containers.py:24 | `insort` keeps the list sorted, adds one item, and adds exactly one occurrence of `x` to the multiset; items at most `x` keep their index and greater items shift by one |
| SortedContainer.Add | implementing_custom_containers.py:23-24 | `add` keeps the container sorted and grows it by one; the multiset gains exactly `item`; a new item equal to stored ones goes after them |
| SortedContainer.Len | implementing_custom_containers.py:19-20 | `len(s)` counts the stored items with multiplicity |
| SortedContainer.GetItem | implementing_custom_containers.py:16-17 | `s[i]` succeeds exactly for `-len <= i < len`, returns a stored item, and otherwise raises `IndexError` |
| SortedContainer.GetItemNegativeWraps | implementing_custom_containers.py:16-17 | index `i - len` reads the same item as index `i` |
| SortedContainer.AddThenQuery | implementing_custom_containers.py:16-24 | after `add`, `len` is one more, `s[0]` is the smallest item and `s[-1]` the largest |
| SortedContainer.SortedPermutationUnique | implementing_custom_containers.py:13 | two sorted sequences with the same multiset of items are equal, so `sorted` has one possible result |
| SortedContainer.SortedOf | implementing_custom_containers.py:13 | `sorted(xs)` is sorted and a permutation of `xs` |
| SortedContainer.InitAsWritten | implementing_custom_containers.py:12-13 | as written, `SortedItems()` raises `TypeError` and `SortedItems(xs)` is empty whatever `xs` is |
| SortedContainer.InitAsWrittenDropsItems | implementing_custom_containers.py:12-13 | `SortedItems([2, 1])` as written is empty, not `[1, 2]`, and `SortedItems()` raises |
| SortedContainer.Init | implementing_custom_containers.py:12-13 | corrected constructor: sorted, holding exactly the initial items, or empty when none are given |
| SortedContainer.InitThenAdd | implementing_custom_containers.py:12-24 | building from `xs` and then adding `x` gives the container built from `xs + [x]` |
| MultipleDispatch.New | multiple_dispatch_with_function_annotations.py:13-16 | a new multimethod has an empty table, the function's name, and the function as fallback |
| MultipleDispatch.SliceStop | multiple_dispatch_with_function_annotations.py:22 | the end index of `types[:stop]` under Python's slice rules always lies within the tuple |
| MultipleDispatch.WriteRounds | multiple_dispatch_with_function_annotations.py:21-22 | after `n` loop rounds, exactly the prefixes longer than `len(types) - n` map to `func` and every other entry is kept, negative slice stops included |
| MultipleDispatch.Register | multiple_dispatch_with_function_annotations.py:18-24 | registration maps exactly the prefixes of lengths `max(0, k-d)` to `k` to `func`, overwriting them, and keeps every other entry, the name and the fallback |
| MultipleDispatch.ArgTypes | multiple_dispatch_with_function_annotations.py:27 | the dispatch key is the exact types of the arguments after the receiver, empty when there are none |
| MultipleDispatch.Call | multiple_dispatch_with_function_annotations.py:26-32 | a call passes every argument, receiver included, to the table entry for its exact argument types when there is one, and to the fallback exactly when there is none |
| MultipleDispatch.CallAfterRegister | multiple_dispatch_with_function_annotations.py:18-32 | after registering, calls whose key is a registered prefix run the new function; every other call runs what it ran before |
| MultipleDispatch.ExactTypesOnly | multiple_dispatch_with_function_annotations.py:27-28 | a `bool` argument never matches an `int` entry, so such a call reaches the fallback |
| MultipleDispatch.SpamBar | multiple_dispatch_with_function_annotations.py:45-57 | the `Spam.bar` multimethod falls back to the raising default |
| MultipleDispatch.RunBar | multiple_dispatch_with_function_annotations.py:46-57 | the default raises `TypeError('No matching method for bar')`; the other two run their own printing branch |
| MultipleDispatch.SpamBarTable | multiple_dispatch_with_function_annotations.py:51-57 | successive `match` decorations accumulate into exactly `{(int,int): bar1, (str,int): bar2, (str,): bar2}` |
| MultipleDispatch.SpamBarDispatch | multiple_dispatch_with_function_annotations.py:46-57 | `(int,int)` runs the first function, `(str,int)` and `(str,)` the second, and every other key raises `TypeError` |
| MultipleDispatch.SpamBarExamples | multiple_dispatch_with_function_annotations.py:46-57 | `bar(2, 3)`, `bar('s')` and `bar('s', 1)` succeed, while `bar(True, 3)` and `bar(2)` raise |
| CachedInstances.Empty | cached_instances.py:12 | a new `WeakValueDictionary` holds nothing and satisfies the cache invariant |
| CachedInstances.GetOrCreate | cached_instances.py:14-20 | a hit returns the cached object and creates nothing; a miss creates one fresh object and records it; other keys are untouched; the invariant holds |
| CachedInstances.Evict | cached_instances.py:10-12 | a collected object's entry vanishes and nothing else changes |
| CachedInstances.Clear | creating_cached_instances.py:54-55 | `clear` empties the cache without reusing ids |
| CachedInstances.SameKeySameObject | cached_instances.py:24-30 | two `get_spam` calls with the same name return the identical object, and the second creates nothing |
| CachedInstances.DistinctKeysDistinctObjects | cached_instances.py:24-27 | different names give distinct objects |
| CachedInstances.ClearThenMiss | cached_instances.py:46-55 | after `clear`, any lookup creates an object unlike every object cached before |
| CachedInstances.LookupAll | cached_instances.py:14-20 | a run of lookups caches exactly the old keys plus the looked-up keys, and never replaces an existing entry |
| CachedInstances.CreatesOncePerKey | cached_instances.py:14-20 | over any run of `get_spam` calls without eviction, one object is created per distinct name not cached at the start |
| CachedInstances.ConstructDirectly | creating_cached_instances.py:60-61 | calling `Spam(...)` directly always raises `RuntimeError("Can't instantiate directly")` |
| CachedInstances.ManagerGetSpamAsWritten | creating_cached_instances.py:46-67 | as written, a hit returns the cached object, and a miss raises `TypeError` because `_new` returns `None` |
| CachedInstances.ManagerAsWrittenNeverCaches | creating_cached_instances.py:64-67 | a fresh manager raises on its first `get_spam`, where the corrected one succeeds |
| CachedInstances.ManagerGetSpam | cached_instances.py:46-52 | corrected manager: never raises, returns the cached object on a hit, and creates and records one fresh object on a miss |
| CachedInstances.ManagerAsWrittenAgreesOnHits | creating_cached_instances.py:46-52 | the as-written manager fails exactly on misses and agrees with the corrected one elsewhere |
| CachedInstances.CreateClass | cached_instances.py:81-83 | creating a class gives it its own empty cache and leaves other classes' caches alone |
| CachedInstances.CachedCall | cached_instances.py:85-91 | an argument tuple `==` to a cached one returns the cached instance with no new `__init__`; any other tuple creates one instance from exactly these arguments and caches it; other classes are untouched |
| CachedInstances.CallTwice | cached_instances.py:85-91 | a second call with `==` arguments returns the first call's instance and builds nothing, so `Spam(1)` and `Spam(True)` are one object; a second call with different, uncached arguments builds a distinct instance |
| CachedInstances.EvictCached | cached_instances.py:83 | a collected instance's entry vanishes from its class's cache and nothing else changes |
| CachedInstances.CallAfterEvict | cached_instances.py:83-91 | after the cached instance is collected, the next call with `==` arguments runs `__init__` again and returns a new instance |
| CachedInstances.ArgKeys | cached_instances.py:86 | the dictionary key of each argument tuple of a run of calls, in order |
| CachedInstances.CachedCallAll | cached_instances.py:85-91 | a run of calls caches exactly the old keys plus the keys of the calls' argument tuples, never replaces an existing entry, and leaves other classes alone |
| CachedInstances.CachedCreatesOncePerTuple | cached_instances.py:85-91 | over any run of calls without eviction, one instance is built per distinct argument tuple up to `==` that was not cached at the start |
| CachedInstances.CachedSpamExample | cached_instances.py:95-111 | `Spam('Guido')`, `Spam('Diana')`, `Spam('Guido')` give `a is b` false and `a is c` true, with two instances built |
| CachedInstances.EqualArgsExample | cached_instances.py:85-91 | `Spam(1)` then `Spam(True)` return one instance, built once from the arguments `(1,)` |
| SingletonMeta.CreateClass | singletone.py:1-4 | a new class starts with an empty slot; other classes keep theirs |
| SingletonMeta.Call | singletone.py:6-11 | the first call builds one instance from its arguments, stores it and adds one to the class's `__init__` count; later calls return it, ignore their arguments and build nothing; other classes are untouched |
| SingletonMeta.CallAll | singletone.py:6-11 | any run of calls keeps the invariant that `__init__` ran once exactly when the slot is set |
| SingletonMeta.SlotNeverCleared | singletone.py:3-11 | once set, a slot never changes again, whatever calls follow |
| SingletonMeta.AtMostOneConstruction | singletone.py:6-11 | over any run of calls, each class runs `__init__` at most once, and has run it exactly when its slot is set |
| SingletonMeta.SpamExample | singletone.py:15-30 | `Spam()` three times gives one object and one `__init__` |
| Profiling.Wrap | defining_decorators_as_classes.py:13-15 | `Profiled(func)` starts at `ncalls == 0` |
| Profiling.Call | defining_decorators_as_classes.py:17-19 | each call adds one to `ncalls`, even when the call raises, and returns what the wrapped function returns on the same arguments |
| Profiling.Get | defining_decorators_as_classes.py:21-25 | `__get__` returns the object itself exactly when `instance` is `None`, and otherwise a method bound to `instance` |
| Profiling.CallAccess | defining_decorators_as_classes.py:21-25 | calling through either access bumps the same counter; a bound method passes the instance first |
| Profiling.CallAll | defining_decorators_as_classes.py:17-19 | after any run of calls, `ncalls` has grown by the number of calls |
| Profiling.Profile | defining_decorators_as_classes.py:56-57 | the closure's counter starts at 0 |
| Profiling.WrapperCall | defining_decorators_as_classes.py:59-62 | each closure call adds one to the cell and returns the wrapped function's result |
| Profiling.NCalls | defining_decorators_as_classes.py:63 | `wrapper.ncalls()` reads the closure's shared counter |
| Profiling.WrapperCallAll | defining_decorators_as_classes.py:59-63 | after any run of closure calls, `ncalls()` has grown by the number of calls |
| Profiling.RunsMatch | defining_decorators_as_classes.py:12-64 | the class and the closure keep equal counts over any run of calls, and `ncalls()` on a fresh `profiled(func)` reports exactly the calls made |
| Profiling.ClosureMatchesClass | defining_decorators_as_classes.py:12-64 | the class and the closure give the same result and count for every call |
| Profiling.Add | defining_decorators_as_classes.py:67-69 | `add(x, y)` is `x + y` on two integers or two strings, and every error it raises, the wrong number of arguments included, is a `TypeError` |
| Profiling.AddExample | defining_decorators_as_classes.py:74-79 | `add(2,3)` is 5, `add(4,5)` is 9, and `ncalls()` is then 2 |
| LazyProperty.DescriptorGet | lazyproperty.py:5-11 | class access gives the descriptor; on an instance, a function that returns has its value stored under `func.__name__` and returned, and a function that raises propagates its exception with nothing stored |
| LazyProperty.Access | lazyproperty.py:5-11 | a read computes exactly when nothing is stored under the attribute the descriptor is bound to; a successful computation stores under `func.__name__` and changes nothing else; a failed one changes nothing; other instances are untouched |
| LazyProperty.SecondReadIsCached | lazyproperty.py:40-44 | after a successful read, a second read of a decorated property returns the stored value without recomputing; after a raising read, the second read computes and raises again |
| LazyProperty.MisboundRecomputes | lazyproperty.py:9-10 | a descriptor bound under a name other than `func.__name__` computes again on every successful read |
| LazyProperty.PropertiesIndependent | lazyproperty.py:24-49 | reading one lazy property neither computes nor changes another one bound under a different attribute |
| LazyProperty.Computations | lazyproperty.py:40-49 | over `n` reads with nothing stored, a decorated property whose function returns computes exactly once, and a function that raises computes on all `n` reads; with a value stored, none computes |
| ClosureAccessors.NewSample | accessing_variables_defined_inside_a_closure.py:10-11 | `sample()` makes a new cell holding 0 and leaves every existing cell alone |
| ClosureAccessors.Show | accessing_variables_defined_inside_a_closure.py:14-15 | `func` shows the same `n` that `get_n` reads |
| ClosureAccessors.GetN | accessing_variables_defined_inside_a_closure.py:18-19 | `get_n()` reads the value in this closure's own cell |
| ClosureAccessors.SetN | accessing_variables_defined_inside_a_closure.py:21-23 | `set_n` keeps the set of closures and the store invariant |
| ClosureAccessors.GetAfterSet | accessing_variables_defined_inside_a_closure.py:18-23 | after `set_n(v)`, both `get_n()` and `func` see `v` |
| ClosureAccessors.LastSetWins | accessing_variables_defined_inside_a_closure.py:18-23 | the last `set_n` wins, and writing back what `get_n` read changes nothing |
| ClosureAccessors.ClosuresIndependent | accessing_variables_defined_inside_a_closure.py:10-11 | one closure's `set_n` leaves every other closure's `n` alone |
| ClosureAccessors.TwoSamplesDistinct | accessing_variables_defined_inside_a_closure.py:10-11 | two `sample()` calls close over different cells |
| ClosureAccessors.SampleExample | accessing_variables_defined_inside_a_closure.py:32-39 | `f()` shows 0, and after `set_n(10)` both `f()` and `get_n()` give 10 |
| CodingConventions.FirstBadName | enforcing_coding_conventions_in_classes.py:25-27 | finds no name if and only if every name is lower case; otherwise finds the first offender in namespace order |
| CodingConventions.NoMixedCaseNew | enforcing_coding_conventions_in_classes.py:24-28 | class creation succeeds if and only if every name is lower case, and passes the namespace on unchanged; otherwise it raises `TypeError('Bad attribute name: ' + name)` for the first offender |
| CodingConventions.MetaFor | enforcing_coding_conventions_in_classes.py:14-17 | a class gets the checking metaclass if and only if it names it or a base has it |
| CodingConventions.DefineClass | enforcing_coding_conventions_in_classes.py:31-42 | under the checking metaclass a class statement succeeds if and only if all its names are lower case; a successful one records the class |
| CodingConventions.SubclassInheritsCheck | enforcing_coding_conventions_in_classes.py:35-42 | a subclass of a checked class with a mixed-case name fails to be defined |
| CodingConventions.RootABExample | enforcing_coding_conventions_in_classes.py:31-42 | `A` with `foo_bar` is accepted, and `B` with `fooBar` raises `TypeError('Bad attribute name: fooBar')` |
| SkippingItems.IsComment | skipping_items.py:7 | `line.startswith('#')` holds if and only if the line is non-empty and begins with `#` |
| SkippingItems.SkipLeadingComments | skipping_items.py:7 | the output is a suffix of the lines, every dropped line starts with `#`, and the first emitted line does not |
| SkippingItems.SkipCharacterised | skipping_items.py:7 | the output is `lines[k..]` if and only if `k` ends the leading run of comment lines |
| SkippingItems.EmptyIffAllComments | skipping_items.py:7 | nothing is emitted if and only if every line starts with `#`, including the empty input |
| SkippingItems.SkipIdempotent | skipping_items.py:7 | skipping the output again changes nothing |
| SkippingItems.KeepsEverythingAfterFirstCode | skipping_items.py:7-8 | after the first non-comment line, every line is emitted, later `#` lines included |

## Left out

- The tree recipe in `memory_management_in_cyclic_data_structures(tree).py` is not part of this model.
- context_manager.py is a network client whose state only guards socket calls. It is not part of this model.
- `MatchSignaturesMeta` is left out. It compares `inspect.signature` results and logs through `logging`, which is runtime introspection.
- metaclass_that_takes_optional_arguments.py is left out because every body is `...`.
- using_decorators_to_patch_class_definitions.py is left out because its only effect is a `print` around attribute lookup.
- saving_memory_when_creating_a_large_number_of_instances.py is left out because `__slots__` is memory layout with no logic.
- `Circle` in lazyproperty.py computes with floating-point `math.pi`. The computed function is a parameter instead.
- Garbage collection of weak references is modelled only as an explicit `Evict` or `EvictCached`. When an object actually dies is not modelled.
- Console output is not modelled. `RunBar` returns the label of the printing branch, and `ClosureAccessors.Show` returns the value `func` prints rather than its text.
- The file I/O of skipping_items.py is not modelled. The file is given as its sequence of lines.
- `str.lower` is modelled over ASCII only. Unicode case mapping is left out.
- Keyword arguments (`**kwargs`) of `Profiled`, `profiled`, `Singleton` and `Cached` are not modelled. Calls carry positional arguments only.
- `functools.wraps` copies the wrapped function's metadata. It is not modelled.
- `multimethod.__get__` is not modelled. Its calls are given the receiver as the first argument, which is what the bound method passes.
- SortedContainer.GetItem: slices (`s[i:j]`) and non-integer indices are not modelled. Neither are the mixin methods `collections.Sequence` adds (`__contains__`, `__iter__`, `index`, `count`).
- Items of `SortedItems` are integers. Comparisons between unorderable types, which raise in `insort` and `sorted`, are not modelled.
- Python 3.10 and later have no `collections.Sequence`, only `collections.abc.Sequence`. The model assumes the base class resolves.
- SingletonMeta.Call and CachedInstances.CachedCall: a wrong-arity or raising `__init__` is not modelled, and construction always succeeds. In Python, `Spam(1)` on singletone.py's `Spam` raises `TypeError` and leaves the slot `None`, and the cached `Spam()` or `Spam('a', 'b')` raises and caches nothing.
- CachedInstances.CachedCall: argument values are integers, booleans, strings, `None` and instances without `__eq__`. Unhashable arguments, which make `args in self.__cache` raise `TypeError`, are not modelled.
- cached_instances.py binds the global name `Spam` three times and `get_spam` twice in one module. When the whole file runs, the later bindings shadow the earlier ones. The model treats each recipe as if it were alone in its module.
- Profiling.Call: the wrapped function is a function of its arguments only. It never calls back through the decorated name and never reads `ncalls`, so only the top-level call is counted. In Python a recursive `@Profiled def fib(n)` enters `__call__` once per nested call, and `fib(3)` leaves `ncalls == 5`.
- Profiling.CallAccess: the shared-counter "+1" counts only the top-level call, for the same reason: calls the wrapped function makes through the decorated name are not modelled.
- Profiling.CallAll: "`ncalls` grows by the number of calls" counts top-level calls only. Nested calls through the decorated name are not modelled.
- Profiling.WrapperCall: `func` never calls the closure again and never reads `ncalls()`, so one call adds exactly one. A recursive `@profiled` function in Python adds one per nested call.
- Profiling.WrapperCallAll: counts top-level closure calls only, for the same reason as `Profiling.WrapperCall`.
- Profiling.RunsMatch: "`ncalls()` reports exactly the calls made" means the top-level calls. Nested calls through the wrapper are not modelled.
- Profiling.Add: the example `add` is stated for integers and strings only. Other operand types raise `TypeError` in the model. Its two error messages are fixed texts standing for the ones Python composes (`add() missing 1 required positional argument: 'y'`, `unsupported operand type(s) for +: 'int' and 'str'`, and so on).
- LazyProperty.Access: the decorated function is modelled as a deterministic function of the instance's attributes that neither assigns to the instance nor reads other lazy properties. A Python function may do either: it may set `self.x`, and reading `self.area` inside it computes and stores `area` too. "Changes nothing else" holds only under that restriction.
- LazyProperty.SecondReadIsCached: "a raising read raises again on the next read" holds only because the function gives the same result on the same attributes. A Python function that raises once, for example on a transient failure, may succeed on a later read.
- LazyProperty.PropertiesIndependent: the independence holds only because the function does not read other lazy properties. In Python, a function that reads another lazy property computes and stores that property as a side effect.
- LazyProperty.Computations: "a raising function computes on all `n` reads" and "computes exactly once" rest on the same restriction to a deterministic, effect-free function of the attributes.

## Findings

| source | as written | input that shows it | evidently intended | confidence | as-written member | corrected member |
|---|---|---|---|---|---|---|
| implementing_custom_containers.py:13 | `sorted(initial) if initial is None else []` | `SortedItems([2, 1])` ends up empty; `SortedItems()` evaluates `sorted(None)` and raises `TypeError` | `sorted(initial) if initial is not None else []` | high; not executed | SortedContainer.InitAsWritten | SortedContainer.Init |
| creating_cached_instances.py:64-67 | `_new` builds the object and sets `name` but has no `return`, so it returns `None` | the first `get_spam('foo')` on a fresh manager stores `None` into the `WeakValueDictionary`, which raises `TypeError`; the same holds for cached_instances.py:64-67 | `return self` at the end of `_new` | high; not executed | CachedInstances.ManagerGetSpamAsWritten | CachedInstances.ManagerGetSpam |

=== FILE: cached_instances.dfy ===
/** The instance caches of cached_instances.py and creating_cached_instances.py
    (the two files share lines 1-70): a `WeakValueDictionary` from a key (a name,
    or a constructor's argument tuple) to the one object created for it.

    Object identity is an integer id drawn from a creation counter, so `a is b`
    is `a.id == b.id`. The weak references are modelled only through an explicit
    `Evict`: an entry disappears when its object is collected, and nothing else
    about garbage collection is modelled. */
module CachedInstances {
  import opened Wrappers
  import opened Py

  /** An object a cache created: its identity and the key it was built from
      (`Spam(name).name`, or the argument tuple passed to `__init__`). */
  datatype Obj<K> = Obj(id: nat, key: K)

  /** The cache's entries, and the counter from which the next new object takes
      its id (every object created so far has a smaller id). */
  datatype Cache<K> = Cache(entries: map<K, Obj<K>>, next: nat)

  /** Every entry holds an object built from its own key, already created, and
      no object sits under two keys. */
  ghost predicate Valid<K>(c: Cache<K>)
  {
    && (forall k :: k in c.entries ==> c.entries[k].key == k && c.entries[k].id < c.next)
    && (forall k1, k2 :: k1 in c.entries && k2 in c.entries && k1 != k2 ==>
          c.entries[k1].id != c.entries[k2].id)
  }

  /** `weakref.WeakValueDictionary()` with nothing created yet. */
  function Empty<K>(): (c: Cache<K>)
    ensures Valid(c) && c.entries == map[]
  {
    Cache(map[], 0)
  }

  /** The outcome of one lookup: the cache afterwards and the object returned. */
  datatype Lookup<K> = Lookup(cache: Cache<K>, obj: Obj<K>)

  /** Module-level `get_spam(name)`. Names are strings, whose `==` is equality
      of content, so the key comparison here is the dictionary's own. On a hit
      the cached object is returned and nothing is created; on a miss exactly
      one new object is created, recorded under `key` and returned. Other keys
      are untouched either way. */
  function GetOrCreate<K>(c: Cache<K>, key: K): (r: Lookup<K>)
    requires Valid(c)
    ensures Valid(r.cache)
    ensures r.obj.key == key
    ensures r.cache.entries == c.entries[key := r.obj]
    ensures key in c.entries ==> r.obj == c.entries[key] && r.cache == c
    ensures key !in c.entries ==> r.obj.id == c.next && r.cache.next == c.next + 1
  {
    if key in c.entries then Lookup(c, c.entries[key])
    else
      var s := Obj(c.next, key);
      Lookup(Cache(c.entries[key := s], c.next + 1), s)
  }

  /** The weak reference to the object under `key` dies: the entry vanishes and
      nothing else changes. */
  function Evict<K>(c: Cache<K>, key: K): (r: Cache<K>)
    requires Valid(c)
    ensures Valid(r)
    ensures r.entries.Keys == c.entries.Keys - {key}
    ensures forall k :: k in r.entries ==> r.entries[k] == c.entries[k]
    ensures r.next == c.next
  {
    Cache(c.entries - {key}, c.next)
  }

  /** `CachedSpamManager.clear`: every entry goes; objects already handed out
      keep their ids. */
  function Clear<K>(c: Cache<K>): (r: Cache<K>)
    requires Valid(c)
    ensures Valid(r)
    ensures r.entries == map[]
    ensures r.next == c.next
  {
    Cache(map[], c.next)
  }

  /** Two lookups of the same key with no eviction in between return the
      identical object, and the second creates nothing. */
  lemma SameKeySameObject<K>(c: Cache<K>, key: K)
    requires Valid(c)
    ensures GetOrCreate(GetOrCreate(c, key).cache, key).obj == GetOrCreate(c, key).obj
    ensures GetOrCreate(GetOrCreate(c, key).cache, key).cache == GetOrCreate(c, key).cache
  {
  }

  /** Looking up two different keys, one after the other, gives two distinct
      objects (`a is b` is false). */
  lemma DistinctKeysDistinctObjects<K>(c: Cache<K>, k1: K, k2: K)
    requires Valid(c)
    requires k1 != k2
    ensures GetOrCreate(GetOrCreate(c, k1).cache, k2).obj.id != GetOrCreate(c, k1).obj.id
  {
  }

  /** After `clear`, the next lookup of any key is a miss: it creates an object
      different from every object the cache held before. */
  lemma ClearThenMiss<K>(c: Cache<K>, key: K)
    requires Valid(c)
    ensures GetOrCreate(Clear(c), key).obj.id == c.next
    ensures forall k :: k in c.entries ==> GetOrCreate(Clear(c), key).obj.id != c.entries[k].id
  {
  }

  /** The distinct keys of a sequence. */
  ghost function Elements<K>(keys: seq<K>): set<K>
  {
    if |keys| == 0 then {} else {keys[0]} + Elements(keys[1..])
  }

  /** A sequence of lookups, in order; the cache afterwards. */
  function LookupAll<K>(c: Cache<K>, keys: seq<K>): (r: Cache<K>)
    requires Valid(c)
    ensures Valid(r)
    ensures r.entries.Keys == c.entries.Keys + Elements(keys)
    ensures forall k :: k in c.entries ==> r.entries[k] == c.entries[k]
    decreases |keys|
  {
    if |keys| == 0 then c
    else LookupAll(GetOrCreate(c, keys[0]).cache, keys[1..])
  }

  /** The keys among `keys` that are not cached yet. */
  ghost function NewKeys<K>(c: Cache<K>, keys: seq<K>): set<K>
  {
    Elements(keys) - c.entries.Keys
  }

  /** How the set of not-yet-cached keys changes when the first key is looked up. */
  lemma NewKeysStep<K>(known: set<K>, k0: K, rest: seq<K>)
    ensures k0 in known ==> Elements([k0] + rest) - known == Elements(rest) - known
    ensures k0 !in known ==> |Elements([k0] + rest) - known| == |Elements(rest) - (known + {k0})| + 1
  {
    assert ([k0] + rest)[1..] == rest;
    if k0 !in known {
      assert Elements([k0] + rest) - known == {k0} + (Elements(rest) - (known + {k0}));
    }
  }

  /** A miss adds exactly its own key. */
  lemma MissAddsOneKey<K>(c: Cache<K>, key: K)
    requires Valid(c) && key !in c.entries
    ensures GetOrCreate(c, key).cache.entries.Keys == c.entries.Keys + {key}
  {
  }

  /** `__init__` runs once per distinct key: over any sequence of lookups with no
      eviction, the number of objects created is the number of distinct keys that
      were not cached at the start. */
  lemma {:induction false} CreatesOncePerKey<K>(c: Cache<K>, keys: seq<K>)
    requires Valid(c)
    ensures LookupAll(c, keys).next == c.next + |NewKeys(c, keys)|
    decreases |keys|
  {
    if |keys| > 0 {
      var k0, rest := keys[0], keys[1..];
      assert keys == [k0] + rest;
      var c' := GetOrCreate(c, k0).cache;
      assert LookupAll(c, keys) == LookupAll(c', rest);
      CreatesOncePerKey(c', rest);
      if k0 in c.entries {
        NewKeysStep(c.entries.Keys, k0, rest);
      } else {
        MissAddsOneKey(c, k0);
        NewKeysStep(c.entries.Keys, k0, rest);
      }
    }
  }

  // CachedSpamManager and the manager-backed Spam (lines 42-70).

  /** `Spam(...)` on the manager-backed class: `__init__` always raises. */
  function ConstructDirectly(args: seq<Value>): (r: Result<Obj<string>, Exception>)
    ensures r.Err? && r.error == RuntimeError("Can't instantiate directly")
  {
    Err(RuntimeError("Can't instantiate directly"))
  }

  /** `CachedSpamManager.get_spam` as written: `Spam._new` has no `return`, so a
      miss stores `None` into the `WeakValueDictionary`, which cannot hold a weak
      reference to `None` and raises `TypeError`; the cache is left unchanged. */
  function ManagerGetSpamAsWritten(c: Cache<string>, name: string): (r: Result<Lookup<string>, Exception>)
    requires Valid(c)
    ensures name in c.entries ==> r == Ok(Lookup(c, c.entries[name]))
    ensures name !in c.entries ==> r == Err(TypeError("cannot create weak reference to 'NoneType' object"))
  {
    if name in c.entries then Ok(Lookup(c, c.entries[name]))
    else Err(TypeError("cannot create weak reference to 'NoneType' object"))
  }

  /** The discrepancy: a fresh manager raises on the very first `get_spam`, and
      since nothing is ever stored, on every later one too. */
  lemma ManagerAsWrittenNeverCaches(name: string)
    ensures ManagerGetSpamAsWritten(Empty(), name).Err?
    ensures ManagerGetSpam(Empty(), name).Ok?
  {
  }

  /** `CachedSpamManager.get_spam` with `_new` returning the new object, as
      evidently intended: it never raises and behaves as the module-level cache. */
  function ManagerGetSpam(c: Cache<string>, name: string): (r: Result<Lookup<string>, Exception>)
    requires Valid(c)
    ensures r.Ok? && Valid(r.value.cache)
    ensures r.value.obj.key == name
    ensures name in c.entries ==> r.value.obj == c.entries[name] && r.value.cache == c
    ensures name !in c.entries ==> r.value.obj.id == c.next && r.value.cache.entries == c.entries[name := r.value.obj]
  {
    Ok(GetOrCreate(c, name))
  }

  /** Wherever the as-written manager returns, the corrected one returns the same
      object; they differ only where the as-written one raises. */
  lemma ManagerAsWrittenAgreesOnHits(c: Cache<string>, name: string)
    requires Valid(c)
    ensures ManagerGetSpamAsWritten(c, name).Ok? ==> ManagerGetSpamAsWritten(c, name) == ManagerGetSpam(c, name)
    ensures ManagerGetSpamAsWritten(c, name).Err? <==> name !in c.entries
  {
  }

  // The `Cached` metaclass (lines 80-91): one cache per class, keyed by the
  // positional argument tuple. A dict compares keys with `==`, so `(1,)` and
  // `(True,)` are one key; the cache is indexed by `TupleKey(args)`.

  /** An instance built by `Cached.__call__`: its identity and the arguments its
      `__init__` received. */
  datatype CachedObj = CachedObj(id: nat, args: seq<Value>)

  /** Every class created with `metaclass=Cached`, with its private cache; ids
      come from one counter shared by all classes. */
  datatype Classes = Classes(caches: map<string, map<seq<Value>, CachedObj>>, next: nat)

  /** Each cached instance sits under the key of the arguments it was built
      from, was created before the counter, and no instance sits under two keys. */
  ghost predicate ClassesValid(w: Classes)
  {
    forall cls :: cls in w.caches ==>
      && (forall k :: k in w.caches[cls] ==>
            TupleKey(w.caches[cls][k].args) == k && w.caches[cls][k].id < w.next)
      && (forall k1, k2 :: k1 in w.caches[cls] && k2 in w.caches[cls] && k1 != k2 ==>
            w.caches[cls][k1].id != w.caches[cls][k2].id)
  }

  /** `Cached.__init__`: creating a class gives it a fresh, empty cache. */
  function CreateClass(w: Classes, cls: string): (r: Classes)
    requires ClassesValid(w)
    ensures ClassesValid(r)
    ensures cls in r.caches && r.caches[cls] == map[]
    ensures forall other :: other in w.caches && other != cls ==> other in r.caches && r.caches[other] == w.caches[other]
    ensures r.next == w.next
  {
    Classes(w.caches[cls := map[]], w.next)
  }

  /** The result of `cls(*args)`: the classes afterwards and the instance. */
  datatype Instantiation = Instantiation(classes: Classes, obj: CachedObj)

  /** `Cached.__call__`: an argument tuple `==` to a cached one returns the cached
      instance without running `__init__`; any other tuple builds one instance
      from exactly these arguments, caches it and returns it. Other classes'
      caches are untouched. */
  function CachedCall(w: Classes, cls: string, args: seq<Value>): (r: Instantiation)
    requires ClassesValid(w) && cls in w.caches
    ensures ClassesValid(r.classes)
    ensures TupleEq(r.obj.args, args)
    ensures TupleKey(args) in w.caches[cls] ==> r.obj == w.caches[cls][TupleKey(args)] && r.classes == w
    ensures TupleKey(args) !in w.caches[cls] ==>
      r.obj == CachedObj(w.next, args) && r.classes.next == w.next + 1
    ensures cls in r.classes.caches && r.classes.caches[cls] == w.caches[cls][TupleKey(args) := r.obj]
    ensures forall other :: other in w.caches && other != cls ==>
      other in r.classes.caches && r.classes.caches[other] == w.caches[other]
  {
    var key := TupleKey(args);
    if key in w.caches[cls] then
      TupleKeyIffEq(w.caches[cls][key].args, args);
      Instantiation(w, w.caches[cls][key])
    else
      var obj := CachedObj(w.next, args);
      TupleKeyIffEq(args, args);
      Instantiation(Classes(w.caches[cls := w.caches[cls][key := obj]], w.next + 1), obj)
  }

  /** A second call whose arguments are `==` to the first call's returns the
      first call's instance and builds nothing; one whose arguments differ
      builds a new, distinct instance. */
  lemma CallTwice(w: Classes, cls: string, a: seq<Value>, b: seq<Value>)
    requires ClassesValid(w) && cls in w.caches
    ensures var first := CachedCall(w, cls, a);
      var second := CachedCall(first.classes, cls, b);
      (TupleEq(a, b) ==> second.obj == first.obj && second.classes == first.classes)
      && (!TupleEq(a, b) && TupleKey(b) !in w.caches[cls] ==>
            second.obj.id != first.obj.id && second.classes.next == first.classes.next + 1)
  {
    TupleKeyIffEq(a, b);
  }

  /** The weak reference to the instance a class cached under `key` dies: that
      entry vanishes, and nothing else changes. */
  function EvictCached(w: Classes, cls: string, key: seq<Value>): (r: Classes)
    requires ClassesValid(w) && cls in w.caches
    ensures ClassesValid(r)
    ensures cls in r.caches && r.caches[cls].Keys == w.caches[cls].Keys - {key}
    ensures forall k :: k in r.caches[cls] ==> r.caches[cls][k] == w.caches[cls][k]
    ensures forall other :: other in w.caches && other != cls ==>
      other in r.caches && r.caches[other] == w.caches[other]
    ensures r.next == w.next
  {
    Classes(w.caches[cls := w.caches[cls] - {key}], w.next)
  }

  /** Once the cached instance has been collected, the next call with `==`
      arguments runs `__init__` again and returns a new instance. */
  lemma CallAfterEvict(w: Classes, cls: string, a: seq<Value>, b: seq<Value>)
    requires ClassesValid(w) && cls in w.caches && TupleEq(a, b)
    ensures var first := CachedCall(w, cls, a);
      var w' := EvictCached(first.classes, cls, TupleKey(a));
      var second := CachedCall(w', cls, b);
      second.obj.id != first.obj.id && second.obj.args == b && second.classes.next == w'.next + 1
  {
    TupleKeyIffEq(a, b);
  }

  /** The dictionary keys of a sequence of argument tuples, in order. */
  function ArgKeys(calls: seq<seq<Value>>): (keys: seq<seq<Value>>)
    ensures |keys| == |calls|
    ensures forall i :: 0 <= i < |calls| ==> keys[i] == TupleKey(calls[i])
  {
    seq(|calls|, i requires 0 <= i < |calls| => TupleKey(calls[i]))
  }

  /** `cls(*args)` for each argument tuple in turn; the classes afterwards. */
  function CachedCallAll(w: Classes, cls: string, calls: seq<seq<Value>>): (r: Classes)
    requires ClassesValid(w) && cls in w.caches
    ensures ClassesValid(r) && cls in r.caches
    ensures r.caches[cls].Keys == w.caches[cls].Keys + Elements(ArgKeys(calls))
    ensures forall k :: k in w.caches[cls] ==> r.caches[cls][k] == w.caches[cls][k]
    ensures forall other :: other in w.caches && other != cls ==>
      other in r.caches && r.caches[other] == w.caches[other]
    decreases |calls|
  {
    if |calls| == 0 then w
    else
      assert ArgKeys(calls) == [TupleKey(calls[0])] + ArgKeys(calls[1..]);
      assert ([TupleKey(calls[0])] + ArgKeys(calls[1..]))[1..] == ArgKeys(calls[1..]);
      CachedCallAll(CachedCall(w, cls, calls[0]).classes, cls, calls[1..])
  }

  /** `__init__` runs once per distinct argument tuple, tuples that are `==`
      counting as one: over any run of calls with no eviction, the number of
      instances built is the number of distinct keys not cached at the start. */
  lemma {:induction false} CachedCreatesOncePerTuple(w: Classes, cls: string, calls: seq<seq<Value>>)
    requires ClassesValid(w) && cls in w.caches
    ensures CachedCallAll(w, cls, calls).next == w.next + |Elements(ArgKeys(calls)) - w.caches[cls].Keys|
    decreases |calls|
  {
    if |calls| > 0 {
      var k0, rest := TupleKey(calls[0]), calls[1..];
      assert ArgKeys(calls) == [k0] + ArgKeys(rest);
      var w' := CachedCall(w, cls, calls[0]).classes;
      assert CachedCallAll(w, cls, calls) == CachedCallAll(w', cls, rest);
      CachedCreatesOncePerTuple(w', cls, rest);
      assert w'.caches[cls].Keys == w.caches[cls].Keys + {k0};
      NewKeysStep(w.caches[cls].Keys, k0, ArgKeys(rest));
    }
  }

  /** The example: `Spam('Guido')`, `Spam('Diana')`, `Spam('Guido')` in a new
      class give `a is b` false and `a is c` true, with two instances built. */
  lemma CachedSpamExample()
    ensures var w0 := CreateClass(Classes(map[], 0), "Spam");
      var a := CachedCall(w0, "Spam", [Str("Guido")]);
      var b := CachedCall(a.classes, "Spam", [Str("Diana")]);
      var c := CachedCall(b.classes, "Spam", [Str("Guido")]);
      a.obj.id != b.obj.id && a.obj.id == c.obj.id && c.classes.next == 2
  {
    var guido, diana := [Str("Guido")], [Str("Diana")];
    assert TupleKey(guido) == guido && TupleKey(diana) == diana;
    var w0 := CreateClass(Classes(map[], 0), "Spam");
    CallTwice(w0, "Spam", guido, diana);
    var a := CachedCall(w0, "Spam", guido);
    CallTwice(a.classes, "Spam", diana, guido);
  }

  /** `Spam(1)` followed by `Spam(True)` builds one instance, since `1 == True`;
      the instance keeps the arguments of the first call. */
  lemma EqualArgsExample()
    ensures var w0 := CreateClass(Classes(map[], 0), "Spam");
      var a := CachedCall(w0, "Spam", [Int(1)]);
      var b := CachedCall(a.classes, "Spam", [Bool(true)]);
      a.obj.id == b.obj.id && b.obj.args == [Int(1)] && b.classes.next == 1
  {
    CallTwice(CreateClass(Classes(map[], 0), "Spam"), "Spam", [Int(1)], [Bool(true)]);
  }
}

=== FILE: closure.dfy ===
/** `sample()` from accessing_variables_defined_inside_a_closure.py: each call
    creates a cell `n`, shared by the closure `func` (which shows it) and the
    accessors `get_n` and `set_n` attached to it. Cells live in a store so that
    two closures' cells can be told apart. */
module ClosureAccessors {
  import opened Py

  /** Every closure cell created so far, by id, and the id the next one gets. */
  datatype Store = Store(cells: map<nat, Value>, next: nat)

  /** Every existing cell has an id below the counter. */
  ghost predicate Valid(st: Store)
  {
    forall id :: id in st.cells ==> id < st.next
  }

  /** The function `sample()` returns, with `get_n`/`set_n` attached: all
      three close over the cell `cell`. */
  datatype Sample = Sample(cell: nat)

  /** A closure exists in the store. */
  predicate Live(st: Store, f: Sample)
  {
    f.cell in st.cells
  }

  /** The store after `sample()` and the function it returned. */
  datatype Created = Created(store: Store, f: Sample)

  /** `sample()`: a new cell holding 0, distinct from every existing cell, which
      are left as they were. */
  function NewSample(st: Store): (r: Created)
    requires Valid(st)
    ensures Valid(r.store)
    ensures Live(r.store, r.f)
    ensures r.f.cell !in st.cells
    ensures r.store.cells[r.f.cell] == Int(0)
    ensures forall id :: id in st.cells ==> id in r.store.cells && r.store.cells[id] == st.cells[id]
  {
    Created(Store(st.cells[st.next := Int(0)], st.next + 1), Sample(st.next))
  }

  /** `f()`: the value of `n` it prints, which is what this closure's cell
      holds and what `get_n` reads. */
  function Show(st: Store, f: Sample): (v: Value)
    requires Live(st, f)
    ensures v == GetN(st, f)
  {
    st.cells[f.cell]
  }

  /** `f.get_n()`: reads `n` from this closure's own cell. */
  function GetN(st: Store, f: Sample): (v: Value)
    requires Live(st, f)
    ensures v == st.cells[f.cell]
  {
    st.cells[f.cell]
  }

  /** `f.set_n(value)`: rebinds `n` in this closure's cell only. */
  function SetN(st: Store, f: Sample, value: Value): (r: Store)
    requires Valid(st) && Live(st, f)
    ensures Valid(r) && Live(r, f)
    ensures r.cells.Keys == st.cells.Keys
    ensures r.next == st.next
  {
    Store(st.cells[f.cell := value], st.next)
  }

  /** After `set_n(v)`, `get_n()` returns `v` and `func` shows `v`. */
  lemma GetAfterSet(st: Store, f: Sample, v: Value)
    requires Valid(st) && Live(st, f)
    ensures GetN(SetN(st, f, v), f) == v
    ensures Show(SetN(st, f, v), f) == v
  {
  }

  /** The last `set_n` wins, and setting the value already held changes
      nothing (so reading and writing back is a no-op). */
  lemma LastSetWins(st: Store, f: Sample, v1: Value, v2: Value)
    requires Valid(st) && Live(st, f)
    ensures SetN(SetN(st, f, v1), f, v2) == SetN(st, f, v2)
    ensures SetN(st, f, GetN(st, f)) == st
  {
  }

  /** Each `sample()` gets its own `n`: setting one closure's `n` leaves every
      other closure's `n` unchanged. */
  lemma ClosuresIndependent(st: Store, f: Sample, g: Sample, v: Value)
    requires Valid(st) && Live(st, f) && Live(st, g) && f != g
    ensures GetN(SetN(st, f, v), g) == GetN(st, g)
  {
  }

  /** Two successive `sample()` calls give closures over different cells. */
  lemma TwoSamplesDistinct(st: Store)
    requires Valid(st)
    ensures NewSample(NewSample(st).store).f != NewSample(st).f
  {
  }

  /** The example: `f = sample()`, `f()` shows 0, `f.set_n(10)`, then `f()`
      shows 10 and `f.get_n()` is 10. */
  lemma SampleExample()
    ensures var c := NewSample(Store(map[], 0));
      Show(c.store, c.f) == Int(0)
      && Show(SetN(c.store, c.f, Int(10)), c.f) == Int(10)
      && GetN(SetN(c.store, c.f, Int(10)), c.f) == Int(10)
  {
  }
}

=== FILE: coding_conventions.dfy ===
/** `NoMixedCaseMeta` from enforcing_coding_conventions_in_classes.py: a
    metaclass whose `__new__` rejects a class body holding any name that differs
    from its lower-case form, naming the first such name in body order. Every
    subclass of a class built with it is built with it too. */
module CodingConventions {
  import opened Wrappers
  import opened Py

  /** `name.lower() == name`. */
  predicate IsLowerName(name: string)
  {
    Lower(name) == name
  }

  /** The first name in body order that is not its own lower-case form. */
  function FirstBadName(names: seq<string>): (r: Option<string>)
    ensures r.None? <==> forall i :: 0 <= i < |names| ==> IsLowerName(names[i])
    ensures r.Some? ==> exists i :: (0 <= i < |names| && names[i] == r.value && !IsLowerName(names[i])
      && forall j :: 0 <= j < i ==> IsLowerName(names[j]))
  {
    if |names| == 0 then None
    else if !IsLowerName(names[0]) then Some(names[0])
    else
      var rest := FirstBadName(names[1..]);
      assert forall i :: 1 <= i < |names| ==> names[i] == names[1..][i - 1];
      rest
  }

  /** A class as `type.__new__` receives it: name, bases and the namespace's
      names in definition order. */
  datatype ClassDef = ClassDef(name: string, bases: seq<string>, namespace: seq<string>)

  /** `NoMixedCaseMeta.__new__`: the class is created, with its namespace
      unchanged, exactly when every name is lower case; otherwise
      `TypeError('Bad attribute name: ' + name)` names the first offender. */
  function NoMixedCaseNew(clsname: string, bases: seq<string>, namespace: seq<string>)
    : (r: Result<ClassDef, Exception>)
    ensures r.Ok? <==> forall i :: 0 <= i < |namespace| ==> IsLowerName(namespace[i])
    ensures r.Ok? ==> r.value == ClassDef(clsname, bases, namespace)
    ensures r.Err? ==> exists i :: (0 <= i < |namespace| && !IsLowerName(namespace[i])
      && (forall j :: 0 <= j < i ==> IsLowerName(namespace[j]))
      && r.error == TypeError("Bad attribute name: " + namespace[i]))
  {
    match FirstBadName(namespace)
    case Some(name) => Err(TypeError("Bad attribute name: " + name))
    case None => Ok(ClassDef(clsname, bases, namespace))
  }

  /** The metaclass a class is built with. */
  datatype Meta = PlainType | NoMixedCaseMeta

  /** Python picks the most derived metaclass among the explicit one and those
      of the bases; `NoMixedCaseMeta` derives from `type`, so it wins whenever it
      appears. */
  function MetaFor(explicit: Option<Meta>, bases: seq<string>, classes: map<string, Meta>): (m: Meta)
    requires forall b :: b in bases ==> b in classes
    ensures m == NoMixedCaseMeta <==>
      explicit == Some(NoMixedCaseMeta) || exists b :: b in bases && classes[b] == NoMixedCaseMeta
  {
    if explicit == Some(NoMixedCaseMeta) || exists b :: b in bases && classes[b] == NoMixedCaseMeta
    then NoMixedCaseMeta else PlainType
  }

  /** A `class` statement: the class is added under its metaclass, or the
      metaclass's `TypeError` propagates and nothing is added. */
  function DefineClass(classes: map<string, Meta>, clsname: string, bases: seq<string>,
                       explicit: Option<Meta>, namespace: seq<string>)
    : (r: Result<map<string, Meta>, Exception>)
    requires forall b :: b in bases ==> b in classes
    ensures MetaFor(explicit, bases, classes) == NoMixedCaseMeta ==>
      (r.Ok? <==> forall i :: 0 <= i < |namespace| ==> IsLowerName(namespace[i]))
    ensures MetaFor(explicit, bases, classes) == PlainType ==> r.Ok?
    ensures r.Ok? ==> r.value == classes[clsname := MetaFor(explicit, bases, classes)]
  {
    var meta := MetaFor(explicit, bases, classes);
    if meta == NoMixedCaseMeta then
      match NoMixedCaseNew(clsname, bases, namespace)
      case Err(e) => Err(e)
      case Ok(_) => Ok(classes[clsname := meta])
    else Ok(classes[clsname := meta])
  }

  /** A subclass of a checked class is checked as well: defining it with a
      mixed-case name fails even though it names no metaclass itself. */
  lemma SubclassInheritsCheck(classes: map<string, Meta>, base: string, clsname: string,
                              namespace: seq<string>, i: nat)
    requires base in classes && classes[base] == NoMixedCaseMeta
    requires i < |namespace| && !IsLowerName(namespace[i])
    ensures DefineClass(classes, clsname, [base], None, namespace).Err?
  {
  }

  /** The example: `Root` with the metaclass, then `A(Root)` defining `foo_bar`
      is accepted and `B(Root)` defining `fooBar` raises
      `TypeError('Bad attribute name: fooBar')`. */
  lemma RootABExample()
    ensures var root := DefineClass(map[], "Root", [], Some(NoMixedCaseMeta), ["__module__", "__qualname__"]);
      && root.Ok?
      && DefineClass(root.value, "A", ["Root"], None, ["__module__", "__qualname__", "foo_bar"]).Ok?
      && NoMixedCaseNew("B", ["Root"], ["__module__", "__qualname__", "fooBar"])
           == Err(TypeError("Bad attribute name: fooBar"))
  {
    var ok := ["__module__", "__qualname__", "foo_bar"];
    forall i | 0 <= i < |ok|
      ensures IsLowerName(ok[i])
    {
      LowerFixedIffNoUpper(ok[i]);
    }
    assert Lower("fooBar")[3] == 'b';
    var bad := ["__module__", "__qualname__", "fooBar"];
    assert IsLowerName(bad[0]) && IsLowerName(bad[1]) by {
      LowerFixedIffNoUpper(bad[0]);
      LowerFixedIffNoUpper(bad[1]);
    }
    assert FirstBadName(["fooBar"]) == Some("fooBar");
    assert FirstBadName(["__qualname__", "fooBar"]) == Some("fooBar") by {
      assert ["__qualname__", "fooBar"][1..] == ["fooBar"];
    }
    assert FirstBadName(bad) == Some("fooBar") by {
      assert bad[1..] == ["__qualname__", "fooBar"];
    }
    assert "Bad attribute name: " + "fooBar" == "Bad attribute name: fooBar";
  }
}

=== FILE: lazyproperty.dfy ===
/** `lazyproperty` from lazyproperty.py: a non-data descriptor whose first read
    on an instance computes the value and stores it in the instance's
    `__dict__` under the function's name, where every later read finds it before
    the descriptor is consulted. The decorated function is a parameter (the
    `Circle` example computes with floating point); it may raise, and then
    nothing is stored. */
module LazyProperty {
  import opened Wrappers
  import opened Py

  /** A lazy property as a class holds it: `attr` is the class attribute the
      descriptor is bound to, `name` is `func.__name__`, and `func` computes a
      value from the instance's attributes or raises. The decorator form
      `@lazyproperty def area(self)` binds it under the function's own name. */
  datatype LazyProp = LazyProp(attr: string, name: string, func: map<string, Value> -> Result<Value, Exception>)

  /** The descriptor as `@lazyproperty` creates it: bound under `func.__name__`. */
  predicate Decorated(p: LazyProp)
  {
    p.attr == p.name
  }

  /** Every live instance's `__dict__`, by object id. */
  type Heap = map<nat, map<string, Value>>

  /** What `__get__` hands back: the descriptor itself, or a computed value. */
  datatype Got = Descriptor | Computed(value: Value)

  /** The instance dictionaries after a read, what the read returned or raised,
      and whether the function ran (the recipe prints "Computing ..." exactly
      then). */
  datatype Read = Read(heap: Heap, value: Result<Value, Exception>, computed: bool)

  /** `lazyproperty.__get__`: on the class it returns the descriptor; on an
      instance it runs the function and, if that returns, stores the result on
      the instance under the function's name and returns it. If the function
      raises, the exception propagates before `setattr` and nothing is stored. */
  function DescriptorGet(p: LazyProp, heap: Heap, instance: Option<nat>): (r: Result<(Heap, Got), Exception>)
    requires instance.Some? ==> instance.value in heap
    ensures instance.None? ==> r == Ok((heap, Descriptor))
    ensures instance.Some? && p.func(heap[instance.value]).Err? ==>
      r == Err(p.func(heap[instance.value]).error)
    ensures instance.Some? && p.func(heap[instance.value]).Ok? ==>
      var id, v := instance.value, p.func(heap[instance.value]).value;
      r == Ok((heap[id := heap[id][p.name := v]], Computed(v)))
  {
    match instance
    case None => Ok((heap, Descriptor))
    case Some(id) =>
      match p.func(heap[id])
      case Err(e) => Err(e)
      case Ok(value) => Ok((heap[id := heap[id][p.name := value]], Computed(value)))
  }

  /** `instance.attr` for a lazy property: the instance dictionary is searched
      first (the descriptor defines no `__set__`), so only a read that finds
      nothing stored under `attr` reaches `__get__`. A successful computation
      adds `name` to this instance's dictionary and nothing else; a failed one
      changes nothing. */
  function Access(p: LazyProp, heap: Heap, id: nat): (r: Read)
    requires id in heap
    ensures r.heap.Keys == heap.Keys
    ensures r.computed <==> p.attr !in heap[id]
    ensures !r.computed ==> r.value == Ok(heap[id][p.attr]) && r.heap == heap
    ensures r.computed ==> r.value == p.func(heap[id])
    ensures r.value.Err? ==> r.heap == heap
    ensures r.computed && r.value.Ok? ==>
      r.heap == heap[id := heap[id][p.name := r.value.value]]
    ensures forall other :: other in heap && other != id ==> r.heap[other] == heap[other]
    ensures forall a :: a in heap[id] && a != p.name ==>
      a in r.heap[id] && r.heap[id][a] == heap[id][a]
  {
    if p.attr in heap[id] then Read(heap, Ok(heap[id][p.attr]), false)
    else
      match DescriptorGet(p, heap, Some(id))
      case Err(e) => Read(heap, Err(e), true)
      case Ok((heap', got)) => Read(heap', Ok(got.value), true)
  }

  /** After a first read that returns, a second read of a decorated property
      returns the stored value without running the function again. A first read
      that raises stores nothing, so the second read runs the function again and
      raises again. */
  lemma SecondReadIsCached(p: LazyProp, heap: Heap, id: nat)
    requires id in heap
    ensures var first := Access(p, heap, id);
      var second := Access(p, first.heap, id);
      && (first.value.Ok? && Decorated(p) ==>
            !second.computed && second.value == first.value && second.heap == first.heap)
      && (first.value.Err? ==> second == first)
  {
  }

  /** A descriptor bound under a name other than `func.__name__` never finds its
      own stored value: every read whose function returns runs it again. */
  lemma MisboundRecomputes(p: LazyProp, heap: Heap, id: nat)
    requires id in heap && !Decorated(p) && p.attr !in heap[id]
    ensures var first := Access(p, heap, id);
      first.computed && (first.value.Ok? ==> Access(p, first.heap, id).computed)
  {
  }

  /** Two lazy properties are cached independently when the first does not
      store under the attribute the second is bound to (for decorated
      properties: when their names differ): reading one neither computes nor
      changes the other's stored value. */
  lemma PropertiesIndependent(p: LazyProp, q: LazyProp, heap: Heap, id: nat)
    requires id in heap && p.name != q.attr
    ensures var after := Access(p, heap, id).heap;
      (q.attr in after[id] <==> q.attr in heap[id])
      && (q.attr in heap[id] ==> after[id][q.attr] == heap[id][q.attr])
      && (Access(q, after, id).computed <==> Access(q, heap, id).computed)
  {
  }

  /** How many of `n` successive reads of `p` on one instance run the function.
      Nothing stored: a decorated property whose function returns computes once
      and is then cached; a function that raises runs, and raises, on every
      read. Something stored: no read computes. */
  function Computations(p: LazyProp, heap: Heap, id: nat, n: nat): (count: nat)
    requires id in heap
    ensures count <= n
    ensures p.attr in heap[id] ==> count == 0
    ensures n > 0 && p.attr !in heap[id] ==> count >= 1
    ensures p.attr !in heap[id] && p.func(heap[id]).Err? ==> count == n
    ensures n > 0 && Decorated(p) && p.attr !in heap[id] && p.func(heap[id]).Ok? ==> count == 1
  {
    if n == 0 then 0
    else
      var r := Access(p, heap, id);
      (if r.computed then 1 else 0) + Computations(p, r.heap, id, n - 1)
  }
}

=== FILE: multimethod.dfy ===
/** `multimethod` from multiple_dispatch_with_function_annotations.py: a table
    from tuples of argument types to functions, filled by `match(...)`
    decorations and consulted on every call with the exact runtime types of the
    arguments after the receiver. */
module MultipleDispatch {
  import opened Wrappers
  import opened Py

  /** A Python function as the dispatcher sees it: its `__name__`, an identity,
      and `len(func.__defaults__)` (0 when `__defaults__` is `None`). */
  datatype Func = Func(name: string, id: nat, ndefaults: nat)

  /** The multimethod object: its name, the `_methods` table and the `_default`
      function called when no entry matches. */
  datatype Multimethod = Multimethod(name: string, methods: map<seq<PyType>, Func>, default: Func)

  /** `multimethod(func)`: an empty table, named after `func`, falling back to
      `func`. */
  function New(func: Func): (m: Multimethod)
    ensures m.methods == map[]
    ensures m.default == func
    ensures m.name == func.name
  {
    Multimethod(func.name, map[], func)
  }

  /** The end index Python uses for `seq[:stop]`: a negative `stop` counts from
      the end, and the result is clamped into `0 .. len`. */
  function SliceStop(len: nat, stop: int): (k: nat)
    ensures k <= len
  {
    if stop < 0 then (if len + stop < 0 then 0 else len + stop)
    else if stop > len then len
    else stop
  }

  /** `key` is a leading part of `types`. */
  predicate IsPrefix(key: seq<PyType>, types: seq<PyType>)
  {
    |key| <= |types| && types[..|key|] == key
  }

  /** The keys `match(*types)` registers for a function with `d` default
      parameters: the prefixes of `types` whose length is at least
      `len(types) - d`. */
  predicate IsRegisteredKey(key: seq<PyType>, types: seq<PyType>, d: nat)
  {
    IsPrefix(key, types) && |types| - d <= |key|
  }

  /** The first `n` rounds of the loop in `register`: round `i` writes `func`
      under `types[:len(types) - i]`. */
  function WriteRounds(methods: map<seq<PyType>, Func>, types: seq<PyType>, func: Func, n: nat)
    : (r: map<seq<PyType>, Func>)
    ensures forall key :: key in r <==> key in methods || (IsPrefix(key, types) && |types| - n < |key|)
    ensures forall key :: key in r ==>
      r[key] == if IsPrefix(key, types) && |types| - n < |key| then func else methods[key]
  {
    if n == 0 then methods
    else
      var key := types[..SliceStop(|types|, |types| - (n - 1))];
      assert IsPrefix(key, types);
      WriteRounds(methods, types, func, n - 1)[key := func]
  }

  /** `m.match(*types)(func)`: registers `func` under every prefix of `types` its
      default parameters allow, overwriting those entries, keeping every other
      entry, and returning the same multimethod so decorations accumulate. */
  function Register(m: Multimethod, types: seq<PyType>, func: Func): (r: Multimethod)
    ensures r.name == m.name && r.default == m.default
    ensures forall key :: key in r.methods <==>
      key in m.methods || IsRegisteredKey(key, types, func.ndefaults)
    ensures forall key :: IsRegisteredKey(key, types, func.ndefaults) ==>
      key in r.methods && r.methods[key] == func
    ensures forall key :: key in m.methods && !IsRegisteredKey(key, types, func.ndefaults) ==>
      key in r.methods && r.methods[key] == m.methods[key]
  {
    m.(methods := WriteRounds(m.methods, types, func, func.ndefaults + 1))
  }

  /** `tuple(type(arg) for arg in args[1:])`: the exact runtime types of the
      arguments after the receiver. */
  function ArgTypes(args: seq<Value>): (key: seq<PyType>)
    ensures |key| == if |args| == 0 then 0 else |args| - 1
    ensures forall i :: 0 <= i < |key| ==> key[i] == TypeOf(args[i + 1])
  {
    if |args| == 0 then []
    else seq(|args| - 1, i requires 0 <= i < |args| - 1 => TypeOf(args[i + 1]))
  }

  /** Which function a call runs and with which arguments. */
  datatype Invocation = Invocation(handler: Func, args: seq<Value>)

  /** `m(*args)`: looks the argument types up in the table and calls the entry,
      or the default, with every argument including the receiver. (A function
      object is always truthy, so `if meth:` only tests for a miss.) */
  function Call(m: Multimethod, args: seq<Value>): (r: Invocation)
    ensures r.args == args
    ensures ArgTypes(args) in m.methods ==> r.handler == m.methods[ArgTypes(args)]
    ensures ArgTypes(args) !in m.methods ==> r.handler == m.default
  {
    var key := ArgTypes(args);
    if key in m.methods then Invocation(m.methods[key], args)
    else Invocation(m.default, args)
  }

  /** After registering `func` for `types`, every call whose argument types are a
      registered prefix runs `func`; every other call runs what it ran before. */
  lemma CallAfterRegister(m: Multimethod, types: seq<PyType>, func: Func, args: seq<Value>)
    ensures IsRegisteredKey(ArgTypes(args), types, func.ndefaults) ==>
      Call(Register(m, types, func), args) == Invocation(func, args)
    ensures !IsRegisteredKey(ArgTypes(args), types, func.ndefaults) ==>
      Call(Register(m, types, func), args) == Call(m, args)
  {
  }

  /** A call hits a table entry only when the argument types match the key
      exactly; a subclass such as `bool` never matches an `int` entry. */
  lemma ExactTypesOnly(m: Multimethod, args: seq<Value>)
    requires |args| >= 2
    requires args[1].Bool?
    requires forall key :: key in m.methods && |key| >= 1 ==> key[0] == IntType
    ensures Call(m, args).handler == m.default
  {
  }

  // The `Spam.bar` example: a default that raises, `bar(self, x, y)` for
  // `(int, int)` and `bar(self, s, n=0)` for `(str, int)`.

  const BarDefault := Func("bar", 0, 0)
  const Bar1 := Func("bar", 1, 0)
  const Bar2 := Func("bar", 2, 1)

  /** The table after the three decorations of `Spam.bar`. */
  function SpamBar(): (m: Multimethod)
    ensures m.default == BarDefault
  {
    Register(Register(New(BarDefault), [IntType, IntType], Bar1), [StrType, IntType], Bar2)
  }

  /** The effect of running one of the `bar` functions: which printing branch ran,
      or the `TypeError` the default raises. */
  function RunBar(inv: Invocation): (r: Result<string, Exception>)
    ensures inv.handler == BarDefault ==> r == Err(TypeError("No matching method for bar"))
    ensures inv.handler == Bar1 ==> r == Ok("Bar 1:")
    ensures inv.handler == Bar2 ==> r == Ok("Bar 2:")
  {
    if inv.handler == Bar1 then Ok("Bar 1:")
    else if inv.handler == Bar2 then Ok("Bar 2:")
    else Err(TypeError("No matching method for bar"))
  }

  /** The `Spam.bar` table holds exactly `(int, int)`, `(str, int)` and `(str,)`;
      the second function gets the shorter key because `n` has a default. */
  lemma SpamBarTable()
    ensures SpamBar().methods == map[[IntType, IntType] := Bar1, [StrType, IntType] := Bar2, [StrType] := Bar2]
  {
  }

  /** `Spam().bar(...)` succeeds exactly for argument types `(int, int)`,
      `(str, int)` and `(str,)`, and raises `TypeError` for everything else. */
  lemma SpamBarDispatch(args: seq<Value>)
    requires |args| >= 1
    ensures ArgTypes(args) == [IntType, IntType] ==> RunBar(Call(SpamBar(), args)) == Ok("Bar 1:")
    ensures ArgTypes(args) in {[StrType, IntType], [StrType]} ==> RunBar(Call(SpamBar(), args)) == Ok("Bar 2:")
    ensures ArgTypes(args) !in {[IntType, IntType], [StrType, IntType], [StrType]} ==>
      RunBar(Call(SpamBar(), args)) == Err(TypeError("No matching method for bar"))
  {
    SpamBarTable();
    var m := SpamBar();
    assert [IntType, IntType] in m.methods && m.methods[[IntType, IntType]] == Bar1;
    assert [StrType, IntType] in m.methods && m.methods[[StrType, IntType]] == Bar2;
    assert [StrType] in m.methods && m.methods[[StrType]] == Bar2;
  }

  /** Concrete calls: `bar(2, 3)` and `bar('s')` succeed; `bar(True, 3)` and
      `bar(2)` raise. */
  lemma SpamBarExamples(self: Value)
    ensures RunBar(Call(SpamBar(), [self, Int(2), Int(3)])) == Ok("Bar 1:")
    ensures RunBar(Call(SpamBar(), [self, Str("s")])) == Ok("Bar 2:")
    ensures RunBar(Call(SpamBar(), [self, Str("s"), Int(1)])) == Ok("Bar 2:")
    ensures RunBar(Call(SpamBar(), [self, Bool(true), Int(3)])).Err?
    ensures RunBar(Call(SpamBar(), [self, Int(2)])).Err?
  {
    var a1, a2, a3, a4, a5 := [self, Int(2), Int(3)], [self, Str("s")], [self, Str("s"), Int(1)],
      [self, Bool(true), Int(3)], [self, Int(2)];
    assert ArgTypes(a1) == [IntType, IntType];
    assert ArgTypes(a2) == [StrType];
    assert ArgTypes(a3) == [StrType, IntType];
    assert ArgTypes(a4) == [BoolType, IntType];
    assert ArgTypes(a5) == [IntType];
    SpamBarDispatch(a1);
    SpamBarDispatch(a2);
    SpamBarDispatch(a3);
    SpamBarDispatch(a4);
    SpamBarDispatch(a5);
  }
}

=== FILE: profiled.dfy ===
/** The call-counting decorators of defining_decorators_as_classes.py: the
    `Profiled` class (lines 12-25) and the `profiled` closure (lines 56-64). Both
    count every call of the wrapped function and pass its result through. The
    wrapped function itself is a parameter: whatever it returns or raises is
    what the wrapper returns or raises. */
module Profiling {
  import opened Wrappers
  import opened Py

  /** A Python callable: arguments in, a value or an exception out. */
  type Func = seq<Value> -> Result<Value, Exception>

  /** A `Profiled` object: the function it wraps (`__wrapped__`) and `ncalls`. */
  datatype Profiled = Profiled(wrapped: Func, ncalls: nat)

  /** `Profiled(func)`: wraps `func` with a counter at zero. */
  function Wrap(func: Func): (p: Profiled)
    ensures p.ncalls == 0
    ensures p.wrapped == func
  {
    Profiled(func, 0)
  }

  /** The object after a call, and what the call returned or raised. */
  datatype Outcome = Outcome(state: Profiled, result: Result<Value, Exception>)

  /** `Profiled.__call__`: counts the call first, so a call that raises is
      counted too, then returns exactly what the wrapped function returns on the
      same arguments. */
  function Call(p: Profiled, args: seq<Value>): (r: Outcome)
    ensures r.state.ncalls == p.ncalls + 1
    ensures r.state.wrapped == p.wrapped
    ensures r.result == p.wrapped(args)
  {
    var counted := p.(ncalls := p.ncalls + 1);
    Outcome(counted, counted.wrapped(args))
  }

  /** What `Profiled.__get__` hands out: the object itself (accessed on the
      class) or a bound method over it (accessed on an instance). */
  datatype Access = Itself | BoundMethod(receiver: Value)

  /** `Profiled.__get__(instance, cls)`: `instance` is `None` for an access
      through the class, and then the object itself is returned; any other
      instance gets a bound method over it. */
  function Get(instance: Value): (a: Access)
    ensures instance == NoneValue <==> a == Itself
    ensures instance != NoneValue ==> a == BoundMethod(instance)
  {
    if instance == NoneValue then Itself else BoundMethod(instance)
  }

  /** Calling what `__get__` returned: a bound method calls the same `Profiled`
      object with the instance as first argument, so both routes share one
      counter. */
  function CallAccess(p: Profiled, a: Access, args: seq<Value>): (r: Outcome)
    ensures r.state.ncalls == p.ncalls + 1
    ensures r.state.wrapped == p.wrapped
    ensures a.Itself? ==> r.result == p.wrapped(args)
    ensures a.BoundMethod? ==> r.result == p.wrapped([a.receiver] + args)
  {
    match a
    case Itself => Call(p, args)
    case BoundMethod(obj) => Call(p, [obj] + args)
  }

  /** The object after a sequence of calls, one argument list per call. */
  function CallAll(p: Profiled, calls: seq<seq<Value>>): (r: Profiled)
    ensures r.ncalls == p.ncalls + |calls|
    ensures r.wrapped == p.wrapped
    decreases |calls|
  {
    if |calls| == 0 then p
    else CallAll(Call(p, calls[0]).state, calls[1..])
  }

  // The closure formulation: `ncalls` is a `nonlocal` cell shared by `wrapper`
  // and the `wrapper.ncalls` lambda.

  /** The closure `profiled(func)` returns: the wrapped `func` and the cell
      `ncalls`. */
  datatype Wrapper = Wrapper(func: Func, ncalls: nat)

  /** `profiled(func)`: a new cell starting at zero. */
  function Profile(func: Func): (w: Wrapper)
    ensures w.ncalls == 0
    ensures w.func == func
  {
    Wrapper(func, 0)
  }

  /** The closure after a call, and what the call returned or raised. */
  datatype WrapperOutcome = WrapperOutcome(state: Wrapper, result: Result<Value, Exception>)

  /** `wrapper(*args)`: bumps the cell by one, then returns what `func` does. */
  function WrapperCall(w: Wrapper, args: seq<Value>): (r: WrapperOutcome)
    ensures r.state.ncalls == w.ncalls + 1
    ensures r.state.func == w.func
    ensures r.result == w.func(args)
  {
    WrapperOutcome(Wrapper(w.func, w.ncalls + 1), w.func(args))
  }

  /** `wrapper.ncalls()`: reads the cell; it takes the closure by value, so it
      changes nothing. */
  function NCalls(w: Wrapper): (n: nat)
    ensures n == w.ncalls
  {
    w.ncalls
  }

  /** The closure after a sequence of calls, one argument list per call. */
  function WrapperCallAll(w: Wrapper, calls: seq<seq<Value>>): (r: Wrapper)
    ensures NCalls(r) == NCalls(w) + |calls|
    ensures r.func == w.func
    decreases |calls|
  {
    if |calls| == 0 then w
    else WrapperCallAll(WrapperCall(w, calls[0]).state, calls[1..])
  }

  /** The class and the closure agree over any run of calls: started alike, both
      end with the same count, so `wrapper.ncalls()` reports exactly the number
      of calls made since `profiled(func)`. */
  lemma RunsMatch(p: Profiled, w: Wrapper, calls: seq<seq<Value>>)
    requires p.wrapped == w.func && p.ncalls == NCalls(w)
    ensures CallAll(p, calls).ncalls == NCalls(WrapperCallAll(w, calls))
    ensures NCalls(WrapperCallAll(Profile(w.func), calls)) == |calls|
  {
  }

  /** The class and the closure count and return alike: started on the same
      function with the same count, one call of each gives the same result and
      leaves the same count. */
  lemma ClosureMatchesClass(p: Profiled, w: Wrapper, args: seq<Value>)
    requires p.wrapped == w.func && p.ncalls == NCalls(w)
    ensures Call(p, args).result == WrapperCall(w, args).result
    ensures Call(p, args).state.ncalls == NCalls(WrapperCall(w, args).state)
    ensures Call(p, args).state.wrapped == WrapperCall(w, args).state.func
  {
  }

  /** The example `add(x, y)`: `x + y` on two integers or two strings, and
      `TypeError` otherwise. The messages stand for Python's, which name the
      missing parameter or the operand types. */
  function Add(args: seq<Value>): (r: Result<Value, Exception>)
    ensures |args| == 2 && args[0].Int? && args[1].Int? ==> r == Ok(Int(args[0].i + args[1].i))
    ensures |args| == 2 && args[0].Str? && args[1].Str? ==> r == Ok(Str(args[0].s + args[1].s))
    ensures |args| != 2 ==> r.Err? && r.error.TypeError?
    ensures r.Err? ==> r.error.TypeError?
  {
    if |args| != 2 then Err(TypeError("add(): wrong number of arguments"))
    else match (args[0], args[1])
      case (Int(x), Int(y)) => Ok(Int(x + y))
      case (Str(x), Str(y)) => Ok(Str(x + y))
      case _ => Err(TypeError("add(): unsupported operand types"))
  }

  /** `add(2, 3)` is 5, `add(4, 5)` is 9, and `add.ncalls()` is then 2, for the
      closure and for the class alike. */
  lemma AddExample()
    ensures var w0 := Profile(Add);
      var a := WrapperCall(w0, [Int(2), Int(3)]);
      var b := WrapperCall(a.state, [Int(4), Int(5)]);
      a.result == Ok(Int(5)) && b.result == Ok(Int(9)) && NCalls(b.state) == 2
    ensures var p0 := Wrap(Add);
      var a := Call(p0, [Int(2), Int(3)]);
      var b := Call(a.state, [Int(4), Int(5)]);
      a.result == Ok(Int(5)) && b.result == Ok(Int(9)) && b.state.ncalls == 2
  {
  }
}

=== FILE: py.dfy ===
/** The slice of Python's runtime the recipes touch: a few value kinds, their
    exact runtime types, the exceptions the recipes raise, and the ASCII part of
    `str.lower`. */
module Py {

  /** Python runtime types the recipes dispatch on. `Bool` is a subclass of
      `Int` in Python, but `type(True)` is `Bool`, never `Int`. */
  datatype PyType = IntType | BoolType | StrType | NoneType | ClassType(cls: string)

  /** Python values, reduced to what the recipes observe. `Instance` is an
      object of a user class, identified by its address `id`. */
  datatype Value =
    | Int(i: int)
    | Bool(b: bool)
    | Str(s: string)
    | NoneValue
    | Instance(cls: string, id: nat)

  /** `type(v)`: the exact runtime type of a value. A `bool` has type `bool`,
      never `int`, and an instance has the type of its own class. */
  function TypeOf(v: Value): (t: PyType)
    ensures t == IntType <==> v.Int?
    ensures t == BoolType <==> v.Bool?
    ensures t == StrType <==> v.Str?
    ensures t == NoneType <==> v.NoneValue?
    ensures v.Instance? <==> t.ClassType?
    ensures v.Instance? ==> t == ClassType(v.cls)
  {
    match v
    case Int(_) => IntType
    case Bool(_) => BoolType
    case Str(_) => StrType
    case NoneValue => NoneType
    case Instance(c, _) => ClassType(c)
  }

  /** Python's `==` between two values: `True == 1` and `False == 0`, since
      `bool` is a subclass of `int`; strings compare by content; `None` equals
      only itself; instances of classes without `__eq__` compare by identity. */
  predicate PyEq(v: Value, w: Value)
  {
    match (v, w)
    case (Int(i), Int(j)) => i == j
    case (Int(i), Bool(b)) => i == (if b then 1 else 0)
    case (Bool(b), Int(j)) => (if b then 1 else 0) == j
    case (Bool(a), Bool(b)) => a == b
    case (Str(s), Str(t)) => s == t
    case (NoneValue, NoneValue) => true
    case (Instance(c, i), Instance(d, j)) => c == d && i == j
    case _ => false
  }

  /** The dictionary key a value stands for: `True` and `False` hash and compare
      as `1` and `0`, every other value as itself. Two values are one key
      exactly when Python's `==` holds between them. */
  function HashKey(v: Value): (k: Value)
    ensures !k.Bool?
    ensures !v.Bool? ==> k == v
  {
    match v
    case Bool(b) => Int(if b then 1 else 0)
    case _ => v
  }

  /** `HashKey` identifies exactly the values `==` identifies. */
  lemma HashKeyIffEq(v: Value, w: Value)
    ensures HashKey(v) == HashKey(w) <==> PyEq(v, w)
  {
  }

  /** The dictionary key of a tuple: the key of each component. */
  function TupleKey(args: seq<Value>): (k: seq<Value>)
    ensures |k| == |args|
    ensures forall i :: 0 <= i < |args| ==> k[i] == HashKey(args[i])
  {
    seq(|args|, i requires 0 <= i < |args| => HashKey(args[i]))
  }

  /** Tuple `==`: the same length and `==` at every position. */
  predicate TupleEq(a: seq<Value>, b: seq<Value>)
  {
    |a| == |b| && forall i :: 0 <= i < |a| ==> PyEq(a[i], b[i])
  }

  /** Two argument tuples are one dictionary key exactly when they are `==`. */
  lemma TupleKeyIffEq(a: seq<Value>, b: seq<Value>)
    ensures TupleKey(a) == TupleKey(b) <==> TupleEq(a, b)
  {
  }

  /** The exceptions the recipes raise, with their message text. */
  datatype Exception =
    | TypeError(msg: string)
    | RuntimeError(msg: string)
    | IndexError(msg: string)

  /** `str.lower` on one character, restricted to ASCII letters. */
  function LowerChar(c: char): (r: char)
    ensures 'A' <= c <= 'Z' ==> r != c && 'a' <= r <= 'z'
    ensures !('A' <= c <= 'Z') ==> r == c
  {
    if 'A' <= c <= 'Z' then (c as int + 32) as char else c
  }

  /** `str.lower` over ASCII: every upper-case letter is mapped to its lower-case
      form, every other character is kept. */
  function Lower(s: string): (r: string)
    ensures |r| == |s|
    ensures forall i :: 0 <= i < |s| ==> r[i] == LowerChar(s[i])
  {
    seq(|s|, i requires 0 <= i < |s| => LowerChar(s[i]))
  }

  /** A string equals its own lower-case form exactly when it holds no ASCII
      upper-case letter. */
  lemma LowerFixedIffNoUpper(s: string)
    ensures Lower(s) == s <==> forall i :: 0 <= i < |s| ==> !('A' <= s[i] <= 'Z')
  {
  }

  /** `str.startswith(prefix)`: `s` is at least as long as `prefix` and agrees
      with it on every one of its positions. */
  function StartsWith(s: string, prefix: string): (b: bool)
    ensures b <==> |prefix| <= |s| && forall i :: 0 <= i < |prefix| ==> s[i] == prefix[i]
  {
    |prefix| <= |s| && s[..|prefix|] == prefix
  }
}

=== FILE: singleton.dfy ===
/** The `Singleton` metaclass of singletone.py: every class created with it
    holds one private instance slot, empty at class creation and filled by the
    first call; later calls return what the slot holds. */
module SingletonMeta {
  import opened Wrappers
  import opened Py

  /** An instance: its identity and the arguments its `__init__` received. */
  datatype Obj = Obj(id: nat, args: seq<Value>)

  /** A class's private `__instance` slot and how many times its `__init__` has
      run. */
  datatype ClassState = ClassState(instance: Option<Obj>, inits: nat)

  /** Every class using the metaclass, and the counter new objects take their
      ids from. */
  datatype Classes = Classes(classes: map<string, ClassState>, next: nat)

  /** Each class has run `__init__` exactly once if its slot is set, and never
      otherwise; every instance was created before the counter. */
  ghost predicate Valid(w: Classes)
  {
    forall cls :: cls in w.classes ==>
      && w.classes[cls].inits == (if w.classes[cls].instance.Some? then 1 else 0)
      && (w.classes[cls].instance.Some? ==> w.classes[cls].instance.value.id < w.next)
  }

  /** `Singleton.__init__`: the new class starts with an empty slot; other
      classes keep their own. */
  function CreateClass(w: Classes, cls: string): (r: Classes)
    requires Valid(w)
    ensures Valid(r)
    ensures cls in r.classes && r.classes[cls].instance == None
    ensures forall other :: other in w.classes && other != cls ==>
      other in r.classes && r.classes[other] == w.classes[other]
    ensures r.next == w.next
  {
    Classes(w.classes[cls := ClassState(None, 0)], w.next)
  }

  /** The result of `cls(*args)`: the classes afterwards and the object. */
  datatype Instantiation = Instantiation(classes: Classes, obj: Obj)

  /** `Singleton.__call__`: the first call builds one instance from its
      arguments and stores it; every later call returns the stored instance,
      ignores its arguments and runs no `__init__`. Other classes are untouched. */
  function Call(w: Classes, cls: string, args: seq<Value>): (r: Instantiation)
    requires Valid(w) && cls in w.classes
    ensures Valid(r.classes)
    ensures cls in r.classes.classes && r.classes.classes[cls].instance == Some(r.obj)
    ensures w.classes[cls].instance.Some? ==> r.obj == w.classes[cls].instance.value && r.classes == w
    ensures w.classes[cls].instance.None? ==>
      r.obj == Obj(w.next, args) && r.classes.next == w.next + 1
      && r.classes.classes[cls].inits == w.classes[cls].inits + 1
    ensures forall other :: other in w.classes && other != cls ==>
      other in r.classes.classes && r.classes.classes[other] == w.classes[other]
  {
    match w.classes[cls].instance
    case Some(obj) => Instantiation(w, obj)
    case None =>
      var obj := Obj(w.next, args);
      var inits := w.classes[cls].inits + 1;
      Instantiation(Classes(w.classes[cls := ClassState(Some(obj), inits)], w.next + 1), obj)
  }

  /** A sequence of calls `cls(*args)`, in order. */
  datatype CallSite = CallSite(cls: string, args: seq<Value>)

  /** The classes after running every call in turn. */
  function CallAll(w: Classes, calls: seq<CallSite>): (r: Classes)
    requires Valid(w)
    requires forall i :: 0 <= i < |calls| ==> calls[i].cls in w.classes
    ensures Valid(r)
    ensures r.classes.Keys == w.classes.Keys
    decreases |calls|
  {
    if |calls| == 0 then w
    else
      var w' := Call(w, calls[0].cls, calls[0].args).classes;
      CallAll(w', calls[1..])
  }

  /** Once set, a slot is never cleared nor replaced, whatever calls follow, and
      `__init__` for that class never runs again. */
  lemma {:induction false} SlotNeverCleared(w: Classes, calls: seq<CallSite>, cls: string)
    requires Valid(w)
    requires forall i :: 0 <= i < |calls| ==> calls[i].cls in w.classes
    requires cls in w.classes && w.classes[cls].instance.Some?
    ensures CallAll(w, calls).classes[cls] == w.classes[cls]
    decreases |calls|
  {
    if |calls| > 0 {
      var w' := Call(w, calls[0].cls, calls[0].args).classes;
      SlotNeverCleared(w', calls[1..], cls);
    }
  }

  /** Over any sequence of calls each class runs `__init__` at most once, and
      it has run exactly when its slot is set. */
  lemma AtMostOneConstruction(w: Classes, calls: seq<CallSite>, cls: string)
    requires Valid(w)
    requires forall i :: 0 <= i < |calls| ==> calls[i].cls in w.classes
    requires cls in w.classes
    ensures CallAll(w, calls).classes[cls].inits <= 1
    ensures CallAll(w, calls).classes[cls].inits == 1 <==> CallAll(w, calls).classes[cls].instance.Some?
  {
  }

  /** The example: `a = Spam()`, `b = Spam()`, `c = Spam()` on a new class give
      `a is b` and `a is c`, with `__init__` run once. */
  lemma SpamExample()
    ensures var w0 := CreateClass(Classes(map[], 0), "Spam");
      var a := Call(w0, "Spam", []);
      var b := Call(a.classes, "Spam", []);
      var c := Call(b.classes, "Spam", []);
      a.obj.id == b.obj.id == c.obj.id && c.classes.classes["Spam"].inits == 1
  {
  }
}

=== FILE: skipping_items.dfy ===
/** The comment skipper of skipping_items.py: `dropwhile(lambda line:
    line.startswith('#'), f)` over the lines of a file. The file is replaced by
    the sequence of its lines; the output is what the loop would print. */
module SkippingItems {
  import opened Py

  /** `line.startswith('#')`: the line is non-empty and its first character
      is `#`. */
  function IsComment(line: string): (b: bool)
    ensures b <==> |line| > 0 && line[0] == '#'
  {
    StartsWith(line, "#")
  }

  /** `dropwhile(startswith('#'), lines)`: drops the leading comment lines and
      yields everything after them unchanged and in order, including later
      comment lines. */
  function SkipLeadingComments(lines: seq<string>): (r: seq<string>)
    ensures |r| <= |lines|
    ensures r == lines[|lines| - |r|..]
    ensures forall i :: 0 <= i < |lines| - |r| ==> IsComment(lines[i])
    ensures |r| > 0 ==> !IsComment(r[0])
  {
    if |lines| == 0 || !IsComment(lines[0]) then lines
    else SkipLeadingComments(lines[1..])
  }

  /** The output is the one suffix that starts after a run of comment lines and
      either is empty or starts with a non-comment line. */
  lemma SkipCharacterised(lines: seq<string>, k: nat)
    requires k <= |lines|
    ensures SkipLeadingComments(lines) == lines[k..] <==>
      (forall i :: 0 <= i < k ==> IsComment(lines[i])) && (k == |lines| || !IsComment(lines[k]))
  {
  }

  /** Nothing is emitted exactly when every line is a comment (in particular
      for an empty file). */
  lemma EmptyIffAllComments(lines: seq<string>)
    ensures SkipLeadingComments(lines) == [] <==> forall i :: 0 <= i < |lines| ==> IsComment(lines[i])
  {
  }

  /** Skipping twice is skipping once: the output never starts with a comment. */
  lemma SkipIdempotent(lines: seq<string>)
    ensures SkipLeadingComments(SkipLeadingComments(lines)) == SkipLeadingComments(lines)
  {
  }

  /** Once a non-comment line is reached, every following line is emitted,
      comment or not. */
  lemma KeepsEverythingAfterFirstCode(lines: seq<string>, k: nat)
    requires k < |lines| && !IsComment(lines[k])
    requires forall i :: 0 <= i < k ==> IsComment(lines[i])
    ensures SkipLeadingComments(lines) == lines[k..]
    ensures forall j :: k <= j < |lines| ==> lines[j] in SkipLeadingComments(lines)
  {
  }
}

=== FILE: sorted_items.dfy ===
/** `SortedItems` from implementing_custom_containers.py: a read-only sequence
    whose items are kept in non-decreasing order, with `add` inserting through
    `bisect.insort`. Items are modelled as integers (any totally ordered type
    behaves the same). */
module SortedContainer {
  import opened Wrappers
  import opened Py

  predicate Sorted(s: seq<int>)
  {
    forall i, j :: 0 <= i < j < |s| ==> s[i] <= s[j]
  }

  /** The container state: the private list `_items`. */
  datatype SortedItems = SortedItems(items: seq<int>)

  predicate Valid(c: SortedItems)
  {
    Sorted(c.items)
  }

  /** The position `bisect.bisect_right` finds in a sorted list: everything
      before it is at most `x`, everything from it on is greater than `x`. */
  function InsertPoint(s: seq<int>, x: int): (k: nat)
    requires Sorted(s)
    ensures k <= |s|
    ensures forall j :: 0 <= j < k ==> s[j] <= x
    ensures forall j :: k <= j < |s| ==> x < s[j]
  {
    if |s| == 0 || x < s[0] then 0 else 1 + InsertPoint(s[1..], x)
  }

  /** A sorted sequence has only one such partition point. */
  lemma PartitionPointUnique(s: seq<int>, x: int, k1: nat, k2: nat)
    requires k1 <= |s| && k2 <= |s|
    requires forall j :: 0 <= j < k1 ==> s[j] <= x
    requires forall j :: k1 <= j < |s| ==> x < s[j]
    requires forall j :: 0 <= j < k2 ==> s[j] <= x
    requires forall j :: k2 <= j < |s| ==> x < s[j]
    ensures k1 == k2
  {
    // The item at the smaller candidate lies on one side of `x`, and both
    // partitions speak about it.
    var m := if k1 < k2 then k1 else k2;
    if m < |s| {
      assert s[m] <= x || x < s[m];
    }
  }

  /** The binary search of `bisect.bisect_right`: it halves `[lo, hi)` and goes
      right when the probe is at most `x`, so it lands on the insertion point. */
  method BisectRight(s: seq<int>, x: int) returns (lo: nat)
    requires Sorted(s)
    ensures lo <= |s|
    ensures forall j :: 0 <= j < lo ==> s[j] <= x
    ensures forall j :: lo <= j < |s| ==> x < s[j]
    ensures lo == InsertPoint(s, x)
  {
    lo := 0;
    var hi := |s|;
    while lo < hi
      invariant 0 <= lo <= hi <= |s|
      invariant forall j :: 0 <= j < lo ==> s[j] <= x
      invariant forall j :: hi <= j < |s| ==> x < s[j]
      decreases hi - lo
    {
      var mid := (lo + hi) / 2;
      if x < s[mid] {
        hi := mid;
      } else {
        lo := mid + 1;
      }
    }
    PartitionPointUnique(s, x, lo, InsertPoint(s, x));
  }

  /** `bisect.insort(a, x)`: `x` inserted at the right-most position that keeps
      `a` sorted. */
  function Insort(s: seq<int>, x: int): (r: seq<int>)
    requires Sorted(s)
    ensures Sorted(r)
    ensures |r| == |s| + 1
    ensures multiset(r) == multiset(s) + multiset{x}
    ensures forall j :: 0 <= j < |s| && s[j] <= x ==> r[j] == s[j]
    ensures forall j :: 0 <= j < |s| && x < s[j] ==> r[j + 1] == s[j]
  {
    var k := InsertPoint(s, x);
    InsertAtKeepsSorted(s, x, k);
    InsertAtMultiset(s, x, k);
    s[..k] + [x] + s[k..]
  }

  /** Splicing `x` in at a partition point of a sorted sequence keeps it
      sorted. */
  lemma InsertAtKeepsSorted(s: seq<int>, x: int, k: nat)
    requires Sorted(s) && k <= |s|
    requires forall j :: 0 <= j < k ==> s[j] <= x
    requires forall j :: k <= j < |s| ==> x < s[j]
    ensures Sorted(s[..k] + [x] + s[k..])
  {
  }

  /** Splicing `x` in anywhere adds exactly one occurrence of it. */
  lemma InsertAtMultiset(s: seq<int>, x: int, k: nat)
    requires k <= |s|
    ensures multiset(s[..k] + [x] + s[k..]) == multiset(s) + multiset{x}
  {
    assert s == s[..k] + s[k..];
  }

  /** `SortedItems.add`: inserts one occurrence of `item` through `insort`; the
      container stays sorted, grows by one, keeps every other item, and places
      the new item after any equal ones. */
  function Add(c: SortedItems, item: int): (r: SortedItems)
    requires Valid(c)
    ensures Valid(r)
    ensures |r.items| == |c.items| + 1
    ensures multiset(r.items) == multiset(c.items) + multiset{item}
    ensures forall j :: 0 <= j < |c.items| && c.items[j] <= item ==> r.items[j] == c.items[j]
    ensures forall j :: 0 <= j < |c.items| && item < c.items[j] ==> r.items[j + 1] == c.items[j]
  {
    SortedItems(Insort(c.items, item))
  }

  /** `len(s)`: the number of stored items, counted with multiplicity. */
  function Len(c: SortedItems): (n: nat)
    ensures n == |multiset(c.items)|
  {
    |c.items|
  }

  /** `s[index]` on the backing list, with Python's negative indices counting
      from the end and `IndexError` outside `-len .. len-1`. */
  function GetItem(c: SortedItems, index: int): (r: Result<int, Exception>)
    ensures r.Ok? <==> 0 <= index + Len(c) && index < Len(c)
    ensures r.Ok? ==> r.value in c.items
    ensures r.Err? ==> r.error == IndexError("list index out of range")
  {
    var n := |c.items|;
    if 0 <= index < n then Ok(c.items[index])
    else if -n <= index < 0 then Ok(c.items[n + index])
    else Err(IndexError("list index out of range"))
  }

  /** A negative index `i - len` names the same item as `i`. */
  lemma GetItemNegativeWraps(c: SortedItems, i: int)
    requires 0 <= i < Len(c)
    ensures GetItem(c, i - Len(c)) == GetItem(c, i) == Ok(c.items[i])
  {
  }

  /** `len` after `add` is one more; the smallest item is at index 0 and the
      largest at index -1, and neither query changes the container. */
  lemma AddThenQuery(c: SortedItems, item: int)
    requires Valid(c)
    ensures Len(Add(c, item)) == Len(c) + 1
    ensures forall j :: 0 <= j < Len(Add(c, item)) ==>
      GetItem(Add(c, item), 0).value <= Add(c, item).items[j] <= GetItem(Add(c, item), -1).value
  {
    var a := Add(c, item);
    var n := |a.items|;
    assert GetItem(a, 0) == Ok(a.items[0]);
    assert GetItem(a, -1) == Ok(a.items[n - 1]);
  }

  /** The head of a sorted sequence is at most every item it holds. */
  lemma SortedHeadIsLeast(a: seq<int>, y: int)
    requires Sorted(a) && |a| > 0
    requires y in multiset(a)
    ensures a[0] <= y
  {
  }

  /** Dropping the head keeps a sequence sorted. */
  lemma SortedTail(a: seq<int>)
    requires Sorted(a) && |a| > 0
    ensures Sorted(a[1..])
  {
  }

  /** The tail holds every item but one occurrence of the head. */
  lemma MultisetTail(a: seq<int>)
    requires |a| > 0
    ensures multiset(a[1..]) == multiset(a) - multiset{a[0]}
  {
    assert a == [a[0]] + a[1..];
  }

  /** Two sorted sequences holding the same multiset of items are equal, so a
      sorted permutation is unique whatever algorithm produced it. */
  lemma {:induction false} SortedPermutationUnique(a: seq<int>, b: seq<int>)
    requires Sorted(a) && Sorted(b)
    requires multiset(a) == multiset(b)
    ensures a == b
  {
    if |a| == 0 {
      assert |multiset(b)| == 0;
    } else {
      assert |b| > 0 by {
        assert |multiset(b)| == |a|;
      }
      assert b[0] in multiset(a) by {
        assert b[0] in multiset(b);
      }
      assert a[0] in multiset(b) by {
        assert a[0] in multiset(a);
      }
      SortedHeadIsLeast(a, b[0]);
      SortedHeadIsLeast(b, a[0]);
      assert a[0] == b[0];
      MultisetTail(a);
      MultisetTail(b);
      var a', b' := a[1..], b[1..];
      assert Sorted(a') by {
        SortedTail(a);
      }
      assert Sorted(b') by {
        SortedTail(b);
      }
      SortedPermutationUnique(a', b');
      assert a == [a[0]] + a';
      assert b == [b[0]] + b';
    }
  }

  /** `sorted(xs)` as repeated insertion: the result is sorted and a
      permutation of `xs`. */
  function SortedOf(xs: seq<int>): (r: seq<int>)
    ensures Sorted(r)
    ensures multiset(r) == multiset(xs)
  {
    if |xs| == 0 then []
    else
      assert xs == xs[..|xs| - 1] + [xs[|xs| - 1]];
      Insort(SortedOf(xs[..|xs| - 1]), xs[|xs| - 1])
  }

  /** `SortedItems.__init__` as written on line 13: the condition is inverted, so
      the default `initial=None` evaluates `sorted(None)` and raises, while any
      real initial sequence is thrown away. */
  function InitAsWritten(initial: Option<seq<int>>): (r: Result<SortedItems, Exception>)
    ensures initial.None? ==> r == Err(TypeError("'NoneType' object is not iterable"))
    ensures initial.Some? ==> r == Ok(SortedItems([]))
  {
    if initial.None? then Err(TypeError("'NoneType' object is not iterable"))
    else Ok(SortedItems([]))
  }

  /** The discrepancy: `SortedItems([2, 1])` ends up empty instead of holding
      `[1, 2]`, and `SortedItems()` raises instead of starting empty. */
  lemma InitAsWrittenDropsItems()
    ensures InitAsWritten(Some([2, 1])) == Ok(SortedItems([]))
    ensures InitAsWritten(Some([2, 1])) != Ok(Init(Some([2, 1])))
    ensures InitAsWritten(None).Err?
    ensures Init(None) == SortedItems([])
  {
  }

  /** `SortedItems.__init__` as evidently intended (`sorted(initial) if initial
      is not None else []`): the container starts with exactly the initial items,
      sorted, or empty when none are given. */
  function Init(initial: Option<seq<int>>): (r: SortedItems)
    ensures Valid(r)
    ensures initial.None? ==> r.items == []
    ensures initial.Some? ==> multiset(r.items) == multiset(initial.value)
  {
    match initial
    case None => SortedItems([])
    case Some(xs) => SortedItems(SortedOf(xs))
  }

  /** Building a container and adding an item gives the same container as
      building it from the initial items plus that item. */
  lemma InitThenAdd(xs: seq<int>, item: int)
    ensures Add(Init(Some(xs)), item) == Init(Some(xs + [item]))
  {
  }
}

=== FILE: wrappers.dfy ===
/** The two shapes every recipe model uses for a Python outcome: a value that
    may be `None`, and a call that either returns or raises. */
module Wrappers {

  /** `None` or a present value. */
  datatype Option<+T> = None | Some(value: T)

  /** Either a normal return value or the exception a call raised. */
  datatype Result<+R, +E> = Ok(value: R) | Err(error: E)
}
